=== FILE: README.md ===
# GreasyForkScriptHistory — a Dafny model of its pure core

The program reads a list of Greasy Fork userscript identifiers from
`script_ids.json`, fetches each script's name and daily install statistics,
turns the daily install deltas into a cumulative installs series, and saves one
chart per script as `output/history_<id>.png`, running the scripts in a process
pool and catching each script's failure on its own. The stand-alone script
`source/main.py` runs the same accumulation loop for one fixed script.

This project models the parts of that program that are not I/O:

- `wrappers.dfy` — `Option` and `Result`, used for a possibly absent JSON key
  and for the exceptions of the remote service and the chart backend.
- `history.dfy` (module `History`) — the accumulation loop shared by both
  files. A statistics object is an ordered `seq<StatsEntry>` of
  `(date, installs)` pairs, in the order the service emits them, with unbounded
  `int` deltas (Python integers do not overflow, and negative deltas are not
  rejected). The sequence stands for the items of a decoded JSON object, whose
  keys are distinct. The model does not require this, and no property proved
  here depends on it. The loop is the tail-recursive `Loop` over its state (index,
  running total, dates so far, totals so far), and its contract is the loop
  invariant. `PrefixSum` is the independent reference definition that the
  results are proved against.
- `config.dfy` (module `Config`) — `load_script_ids` over an abstract file state
  `Missing | Malformed | Parsed(scriptIds)`, returning the identifiers, the file
  as it is afterwards, and which path was taken.
- `jobs.dfy` (module `Jobs`) — chart file naming, the per-script pipeline
  `plot_install_history`, the exception boundary `process_script`, and `main`.
  The remote service and the chart backend are the parameter `Env`: `fetch`
  stands for both HTTP requests and their JSON decoding, and `render` stands for
  drawing and saving. Each returns a `Result` whose failure carries the
  exception's message. The process pool becomes a sequential map, because the jobs
  exchange no data. The model's job logs are in list order, the order in which
  `executor.map` returns results. In the source, each worker prints its own
  messages as its job runs, so the console shows them in completion order.
  Repeated identifiers and a pool that breaks are described under "Left out".

The chart dates are the statistics keys in the service's order, never sorted
here. The model keeps that order exactly (`History.Aggregate`). The running
total is non-negative and non-decreasing only when every delta is non-negative
(`History.AggregateNonDecreasing`). The code does not enforce this, so the model
does not assume it elsewhere. The source does not deduplicate identifiers. Two
equal identifiers therefore give two jobs writing the same file. The path
property is stated for distinct identifiers (`Jobs.DistinctIdsDistinctPaths`).

## Model

| member | source | states |
|---|---|---|
| History.Loop | main.py:33-36 | each iteration appends the date unchanged and the running total; at the end there is one date and one total per entry, `dates[k]` is entry k's date and `totals[k]` is the sum of installs of entries 0..k, and what was already appended is kept |
| History.Aggregate | main.py:29-36 | both output lists have the input's length; dates are the input's keys in input order; `totals[i]` is the sum of installs over entries 0..i starting from 0; the last total is the sum of all deltas |
| History.PrefixSumNonNegative | source/main.py:14-19 | with no negative delta, no running total is negative |
| History.PrefixSumMonotone | source/main.py:16-19 | with no negative delta, a running total over a longer prefix is never smaller |
| History.AggregateNonDecreasing | main.py:31-36 | with no negative delta, the cumulative series is non-negative and non-decreasing |
| History.AggregateAppend | source/main.py:12-19 | aggregating two consecutive stretches of history is the first's series followed by the second's shifted by the first's total |
| History.AggregateTwoDays | source/main.py:16-19 | deltas 5 and 3 on 2023-01-01 and 2023-01-02 give totals 5 and 8 on the same dates |
| Config.Load | main.py:57-72 | a missing file becomes `{"script_ids": ["500519"]}` and yields no identifiers; a malformed file yields none and is not written; a parsed file is not written and yields its `script_ids` list in stored order, or none if the key is absent; identifiers come back only from a parsed file that holds exactly them |
| Config.LoadNonEmptyIff | main.py:63-72 | identifiers are returned if and only if the file parsed and its `script_ids` list is present and non-empty |
| Config.LoadSettles | main.py:64-69 | loading the file a load left behind writes nothing more, and after the default file is created the next load yields `["500519"]` |
| Jobs.OutputFileName | main.py:53 | the chart file name is `history_`, then the identifier, then `.png`, so the identifier can be read back from it |
| Jobs.IdOfOutputFileName | main.py:53 | a name read as a chart name is exactly the chart name of the identifier recovered |
| Jobs.OutputFileNameRoundTrip | main.py:53 | every chart file name reads back as its identifier |
| Jobs.OutputFileNameInjective | main.py:53 | two identifiers share a chart file name if and only if they are equal |
| Jobs.OutputPath | main.py:53 | the chart path is the output directory followed by the chart file name |
| Jobs.OutputPathInjective | main.py:53 | within one output directory, two identifiers share a chart path if and only if they are equal |
| Jobs.PlotInstallHistory | main.py:26-55 | a failed fetch fails the pipeline with its error; on success the chart is titled with the script name, holds the aggregated series and goes to the script's own path, and rendering it succeeded; a render failure surfaces as the pipeline's error |
| Jobs.ProcessScript | main.py:74-82 | no pipeline exception escapes the job: a pipeline error becomes a `Failed` log with the identifier and message, a success a `Generated` log with its chart |
| Jobs.RunAll | main.py:101-106 | exactly one job per identifier, in list order, each the job for its identifier alone |
| Jobs.Main | main.py:84-106 | the configuration is loaded; with no identifiers no directory is created and no job runs; otherwise the output directory is created, and job i is the full pipeline with caught failures for the i-th identifier, writing into `<program dir>/output` |
| Jobs.WrittenByRun | main.py:53-54 | a run writes exactly the chart paths of the identifiers whose pipeline succeeded, and nothing for a failed one |
| Jobs.FailureIsolated | main.py:77-82 | changing what the remote service does for one identifier changes no job for any other identifier and not the number of jobs |
| Jobs.DistinctIdsDistinctPaths | main.py:53 | jobs for distinct identifiers never write the same chart path |
| Jobs.OneFailureOneChart | main.py:74-82 | with identifiers A and B where fetching A fails, A is logged as failed and the only chart written is `history_B.png` |
| Jobs.RerunIsStable | main.py:84-106 | a run leaves an existing configuration unchanged, so a second run with the same remote data produces the same jobs; on a missing configuration the first run does nothing and the second processes only `500519` |

## Left out

- HTTP requests, JSON decoding of the responses and extraction of the `name` field (main.py:13-24, source/main.py:8-10): network I/O through external libraries, abstracted as `Env.fetch`. A statistics entry with no `installs` key, or with a value that is null, a string, a list or an object, raises inside the loop in the source. A JSON boolean does not raise: Python's `bool` is a subclass of `int`, so `true` adds 1 and `false` adds 0 (main.py:35, source/main.py:18), and the `int` model represents this. The model takes the statistics as already decoded, so such a failure counts as a failed fetch.
- History.Aggregate: deltas are integers only. A JSON float delta such as `5.5` is added without error at main.py:35 and makes that total and every later one a float. Float deltas are outside the model.
- Chart rendering: style, figure, font, labels, date parsing with pandas, `savefig`, `close` (main.py:38-55, source/main.py:24-33). This is floating point and rendering inside opaque libraries, abstracted as `Env.render`.
- Reading and writing `script_ids.json` and creating `output`: abstracted as the `ConfigFile` state and the `outputDirCreated` flag. The exact text of the default file (JSON indented by 4) is represented by its parsed content.
- A configuration that parses to something other than a JSON object. There `config.get` raises an uncaught AttributeError (main.py:63), and the model's `Parsed` state assumes an object.
- A `script_ids` value that is not a list of strings, such as null or a number: the model's value is always a list.
- Exceptions in `load_script_ids` other than a missing file and invalid JSON, for example a permission error, a decoding error, or a failure while writing the default file. These propagate in the source and are not modelled.
- `ProcessPoolExecutor` and `os.cpu_count` (main.py:96-106): modelled as a sequential map, because the jobs exchange no data. The jobs do share the pool. If a worker process dies abruptly, for example when the OS kills it or it crashes in native code, `executor.map` raises `BrokenProcessPool` at main.py:106. That error escapes `main`, and pending jobs never run. The model does not cover this.
- Jobs.ProcessScript: the isolation holds only for Python exceptions raised inside the pipeline. Two cases are outside the model:
  - A worker process that dies abruptly, as the pool line above explains.
  - A `print` that raises. The model assumes `print` never does. If stdout cannot encode the identifier, for example an emoji under a cp1252 or GBK code page, the `print` at main.py:78 raises and no chart is drawn. The handler's own `print` at main.py:82 then raises again. That error escapes `process_script`, and `executor.map` re-raises it at main.py:106.
- Config.Load and Jobs.Main: the model assumes `print` never raises. The prints at main.py:65, 71, 89 and 98 can raise the same way and abort `load_script_ids` or `main`.
- Jobs.FailureIsolated: the same limit applies. One identifier's failure leaves the other jobs untouched only when it is a Python exception, not the death of a worker process.
- Jobs.WrittenByRun: a failed render is modelled as writing nothing. In the source, `plt.savefig` (main.py:54) can fail after opening the file and leave a truncated or partial chart at that path.
- Jobs.OutputPath: the chart file name is kept as one path component. pathlib's `/` (main.py:53) and the OS split an identifier at `/` and collapse `//` and `/./`. Identifiers containing a path separator are therefore not modelled.
- Jobs.OutputPathInjective: holds only for identifiers without a path separator, and on a case-sensitive file system.
  - Identifiers containing a separator: `"1/2"` and `"1//2"` both write `output/history_1/2.png` in the source.
  - Identifiers that differ only in letter case, such as `"500519-Foo"` and `"500519-foo"`: they name one file on case-insensitive file systems. These include Windows NTFS and macOS's default APFS, and on Windows pathlib also compares paths without regard to case.
  - In both cases the model keeps the two paths distinct. It compares names exactly and does no case folding.
- Jobs.DistinctIdsDistinctPaths: the same limits as `Jobs.OutputPathInjective`. Distinct identifiers that contain `/`, or that differ only in letter case on a case-insensitive file system, can share a chart file in the source.
- Jobs.RunAll: repeated identifiers are not modelled faithfully.
  - In the source, a repeated identifier gives two jobs that `savefig` the same path at the same time (main.py:54). Which chart remains depends on which save finishes last. A failed save can leave a truncated file.
  - The two real fetches may also return different data.
  - The model's `Env.fetch` is a function of the identifier, so both jobs get the same outcome, and the race is not modelled.
- Console output order: the model's logs are in list order, while the source prints each job's lines in completion order (main.py:78-82).
- `print` logging: the start-of-job line, the dump of the script information and the worker count are not modelled. The outcome lines are modelled as `JobLog` values, and the configuration messages as `LoadStatus`.
- The stand-alone script's fixed identifier and its `history.png` output (source/main.py:8, 33) are rendering and I/O; only its accumulation loop is modelled, by `History.Aggregate`, which is the same loop as in main.py.

=== FILE: config.dfy ===
/**
 * Loading the list of script identifiers from the configuration file
 * `script_ids.json`. The file is abstracted to the three states the loader
 * distinguishes; reading, writing and JSON parsing themselves are not modelled.
 */
module Config {
  import opened Wrappers

  /** The identifier written into a freshly created configuration file. */
  const DefaultScriptId: string := "500519"

  /**
   * The configuration file as the loader finds it: absent, present but not
   * valid JSON, or a parsed JSON object whose `script_ids` key may be absent.
   */
  datatype ConfigFile = Missing | Malformed | Parsed(scriptIds: Option<seq<string>>)

  /** Which of the loader's paths was taken; the returned list alone cannot tell them apart. */
  datatype LoadStatus = CreatedDefault | FormatError | Loaded

  /** The identifiers returned, the file as it is afterwards, and the path taken. */
  datatype LoadResult = LoadResult(ids: seq<string>, file: ConfigFile, status: LoadStatus)

  /** The content the loader writes when no configuration file exists. */
  function DefaultConfig(): ConfigFile
  {
    Parsed(Some([DefaultScriptId]))
  }

  /**
   * A missing file is created with the default content and yields no
   * identifiers (the first run does nothing); a malformed file yields none and
   * is left alone; a parsed file yields its `script_ids` list, or none when the
   * key is absent.
   */
  function Load(file: ConfigFile): (r: LoadResult)
    ensures r.status == CreatedDefault <==> file == Missing
    ensures r.status == FormatError <==> file == Malformed
    ensures file != Missing ==> r.file == file
    ensures file == Missing ==> r.file == Parsed(Some(["500519"]))
    ensures file.Parsed? && file.scriptIds.Some? ==> r.ids == file.scriptIds.value
    ensures r.ids != [] ==> file == Parsed(Some(r.ids))
  {
    match file
    case Missing => LoadResult([], DefaultConfig(), CreatedDefault)
    case Malformed => LoadResult([], file, FormatError)
    case Parsed(ids) => LoadResult(ids.GetOr([]), file, Loaded)
  }

  /** Identifiers come back exactly when the file parsed and holds a non-empty list. */
  lemma LoadNonEmptyIff(file: ConfigFile)
    ensures Load(file).ids != [] <==> file.Parsed? && file.scriptIds.Some? && file.scriptIds.value != []
  {
  }

  /**
   * The file left behind by a load is stable: loading it again neither writes
   * nor changes it, and a file the first load created yields the default identifier.
   */
  lemma LoadSettles(file: ConfigFile)
    ensures Load(Load(file).file).file == Load(file).file
    ensures Load(Load(file).file).status != CreatedDefault
    ensures file == Missing ==> Load(Load(file).file).ids == [DefaultScriptId]
  {
  }
}

=== FILE: history.dfy ===
/**
 * The install-history aggregation: an ordered list of per-date install deltas,
 * as the statistics endpoint returns it, becomes two parallel lists holding the
 * dates and the running install totals. The same loop appears in main.py and in
 * the stand-alone script source/main.py.
 */
module History {

  /** One entry of the statistics object: a date key and the installs gained that day. */
  datatype StatsEntry = StatsEntry(date: string, installs: int)

  /** The parallel lists the loop builds: `dates[i]` is plotted against `totals[i]`. */
  datatype Series = Series(dates: seq<string>, totals: seq<int>)

  /** Reference definition: the installs of the first `n` entries added up, starting from 0. */
  function PrefixSum(stats: seq<StatsEntry>, n: nat): int
    requires n <= |stats|
  {
    if n == 0 then 0 else PrefixSum(stats, n - 1) + stats[n - 1].installs
  }

  /** The installs of every entry added up. */
  function TotalInstalls(stats: seq<StatsEntry>): int
  {
    PrefixSum(stats, |stats|)
  }

  /** No entry reports a negative number of installs. */
  predicate NonNegative(stats: seq<StatsEntry>)
  {
    forall i :: 0 <= i < |stats| ==> stats[i].installs >= 0
  }

  /** The first `n` entries have been consumed: one date and one running total each. */
  ghost predicate Accumulated(stats: seq<StatsEntry>, n: nat, dates: seq<string>, totals: seq<int>)
    requires n <= |stats|
  {
    && |dates| == n
    && |totals| == n
    && (forall k :: 0 <= k < n ==> dates[k] == stats[k].date)
    && (forall k :: 0 <= k < n ==> totals[k] == PrefixSum(stats, k + 1))
  }

  /**
   * The `for date in stats` loop, one iteration per call: `total` is the running
   * sum so far, and each step appends the date unchanged and the updated total.
   * Its contract is the loop invariant carried to the end of the entries.
   */
  function Loop(stats: seq<StatsEntry>, i: nat, total: int, dates: seq<string>, totals: seq<int>): (r: Series)
    requires i <= |stats|
    requires total == PrefixSum(stats, i)
    requires Accumulated(stats, i, dates, totals)
    ensures Accumulated(stats, |stats|, r.dates, r.totals)
    ensures r.dates[..i] == dates && r.totals[..i] == totals
    decreases |stats| - i
  {
    if i == |stats| then
      Series(dates, totals)
    else
      var t := total + stats[i].installs;
      Loop(stats, i + 1, t, dates + [stats[i].date], totals + [t])
  }

  /** The aggregation, started with empty lists and a running total of 0. */
  function Aggregate(stats: seq<StatsEntry>): (r: Series)
    ensures |r.dates| == |stats| && |r.totals| == |stats|
    ensures forall i :: 0 <= i < |stats| ==> r.dates[i] == stats[i].date
    ensures forall i :: 0 <= i < |stats| ==> r.totals[i] == PrefixSum(stats, i + 1)
    ensures |stats| > 0 ==> r.totals[|stats| - 1] == TotalInstalls(stats)
  {
    Loop(stats, 0, 0, [], [])
  }

  /** With non-negative deltas no prefix sum is negative. */
  lemma {:induction false} PrefixSumNonNegative(stats: seq<StatsEntry>, n: nat)
    requires n <= |stats|
    requires NonNegative(stats)
    ensures PrefixSum(stats, n) >= 0
  {
    if n > 0 {
      PrefixSumNonNegative(stats, n - 1);
      assert stats[n - 1].installs >= 0;
    }
  }

  /** With non-negative deltas the prefix sums never decrease. */
  lemma {:induction false} PrefixSumMonotone(stats: seq<StatsEntry>, m: nat, n: nat)
    requires m <= n <= |stats|
    requires NonNegative(stats)
    ensures PrefixSum(stats, m) <= PrefixSum(stats, n)
    decreases n - m
  {
    if m < n {
      PrefixSumMonotone(stats, m, n - 1);
      assert stats[n - 1].installs >= 0;
    }
  }

  /** With non-negative deltas the cumulative series is non-negative and non-decreasing. */
  lemma AggregateNonDecreasing(stats: seq<StatsEntry>)
    requires NonNegative(stats)
    ensures forall i :: 0 <= i < |stats| ==> Aggregate(stats).totals[i] >= 0
    ensures forall i, j :: 0 <= i <= j < |stats| ==> Aggregate(stats).totals[i] <= Aggregate(stats).totals[j]
  {
    var r := Aggregate(stats);
    forall i, j | 0 <= i <= j < |stats|
      ensures 0 <= r.totals[i] <= r.totals[j]
    {
      PrefixSumNonNegative(stats, i + 1);
      PrefixSumMonotone(stats, i + 1, j + 1);
    }
  }

  /** The prefix sums of a concatenation continue from the total of the first part. */
  lemma {:induction false} PrefixSumAppend(a: seq<StatsEntry>, b: seq<StatsEntry>, k: nat)
    requires k <= |b|
    ensures PrefixSum(a + b, |a| + k) == TotalInstalls(a) + PrefixSum(b, k)
  {
    if k == 0 {
      PrefixSumPrefix(a, b, |a|);
    } else {
      PrefixSumAppend(a, b, k - 1);
      assert (a + b)[|a| + k - 1] == b[k - 1];
    }
  }

  /** Extending the entries does not change the sums over an earlier prefix. */
  lemma {:induction false} PrefixSumPrefix(a: seq<StatsEntry>, b: seq<StatsEntry>, n: nat)
    requires n <= |a|
    ensures PrefixSum(a + b, n) == PrefixSum(a, n)
  {
    if n > 0 {
      PrefixSumPrefix(a, b, n - 1);
      assert (a + b)[n - 1] == a[n - 1];
    }
  }

  /**
   * Aggregating two consecutive stretches of history at once is the same as
   * aggregating the first and continuing the second from its final total.
   */
  lemma AggregateAppend(a: seq<StatsEntry>, b: seq<StatsEntry>)
    ensures Aggregate(a + b).dates == Aggregate(a).dates + Aggregate(b).dates
    ensures Aggregate(a + b).totals
         == Aggregate(a).totals + seq(|b|, k requires 0 <= k < |b| => TotalInstalls(a) + Aggregate(b).totals[k])
  {
    var ra, rb, rab := Aggregate(a), Aggregate(b), Aggregate(a + b);
    var shifted := seq(|b|, k requires 0 <= k < |b| => TotalInstalls(a) + rb.totals[k]);
    forall i | 0 <= i < |a| + |b|
      ensures rab.dates[i] == (ra.dates + rb.dates)[i]
      ensures rab.totals[i] == (ra.totals + shifted)[i]
    {
      if i < |a| {
        PrefixSumPrefix(a, b, i + 1);
      } else {
        PrefixSumAppend(a, b, i - |a| + 1);
      }
    }
  }

  /** The two-day example: deltas 5 and 3 give running totals 5 and 8. */
  lemma AggregateTwoDays()
    ensures Aggregate([StatsEntry("2023-01-01", 5), StatsEntry("2023-01-02", 3)])
         == Series(["2023-01-01", "2023-01-02"], [5, 8])
  {
  }
}

=== FILE: jobs.dfy ===
/**
 * The per-script pipeline and the job runner: each identifier is fetched,
 * aggregated and rendered to its own image file; failures are caught per
 * identifier; `main` loads the identifiers and maps the pipeline over them.
 * The remote service and the chart backend are parameters (`Env`); the process
 * pool is modelled as a sequential map, since its jobs exchange no data. The
 * logs are in list order, the order in which `executor.map` returns results.
 */
module Jobs {
  import opened Wrappers
  import History
  import Config

  /** A filesystem path as its list of components. */
  type Path = seq<string>

  const OutputPrefix: string := "history_"
  const OutputSuffix: string := ".png"

  /** The file name a script's chart is saved under. */
  function OutputFileName(id: string): (name: string)
    ensures |name| == |OutputPrefix| + |id| + |OutputSuffix|
    ensures name[..|OutputPrefix|] == OutputPrefix
    ensures name[|OutputPrefix|..|name| - |OutputSuffix|] == id
    ensures name[|name| - |OutputSuffix|..] == OutputSuffix
  {
    OutputPrefix + id + OutputSuffix
  }

  /** Recovers the identifier from a chart file name, if it has the chart-name shape. */
  function IdOfOutputFileName(name: string): (r: Option<string>)
    ensures r.Some? ==> OutputFileName(r.value) == name
  {
    var p, q := |OutputPrefix|, |OutputSuffix|;
    if |name| >= p + q && name[..p] == OutputPrefix && name[|name| - q..] == OutputSuffix then
      var id := name[p..|name| - q];
      assert name == name[..p] + id + name[|name| - q..];
      Some(id)
    else
      None
  }

  /** Every chart file name reads back as the identifier it was made from. */
  lemma OutputFileNameRoundTrip(id: string)
    ensures IdOfOutputFileName(OutputFileName(id)) == Some(id)
  {
  }

  /** Distinct identifiers never share a chart file name. */
  lemma OutputFileNameInjective(a: string, b: string)
    ensures OutputFileName(a) == OutputFileName(b) <==> a == b
  {
  }

  /** Where a script's chart is saved inside the output directory. */
  function OutputPath(outputDir: Path, id: string): (p: Path)
    ensures |p| == |outputDir| + 1
    ensures p[..|outputDir|] == outputDir
    ensures p[|outputDir|] == OutputFileName(id)
  {
    outputDir + [OutputFileName(id)]
  }

  /** Within one output directory, distinct identifiers have distinct chart paths. */
  lemma OutputPathInjective(outputDir: Path, a: string, b: string)
    ensures OutputPath(outputDir, a) == OutputPath(outputDir, b) <==> a == b
  {
  }

  /** What the two requests for a script yield: its display name and its statistics. */
  datatype ScriptData = ScriptData(name: string, stats: seq<History.StatsEntry>)

  /** A chart to be drawn: the title, the cumulative series and the file it goes to. */
  datatype Chart = Chart(title: string, series: History.Series, path: Path)

  /**
   * The outside world for one run: `fetch` stands for both requests and the
   * JSON decoding (failing with the exception's message), `render` for drawing
   * and saving a chart (failing likewise).
   */
  datatype Env = Env(fetch: string -> Result<ScriptData, string>, render: Chart -> Result<(), string>)

  /**
   * Fetch, aggregate and render one script. Any failure of the fetch or of the
   * rendering ends the pipeline with that failure; on success the chart is
   * titled with the script's name and saved under the script's own path.
   */
  function PlotInstallHistory(env: Env, id: string, outputDir: Path): (r: Result<Chart, string>)
    ensures env.fetch(id).Failure? ==> r == Failure(env.fetch(id).error)
    ensures r.Success? ==> env.fetch(id).Success? && env.render(r.value).Success?
    ensures r.Success? ==> r.value.path == OutputPath(outputDir, id)
    ensures r.Success? ==> r.value.title == env.fetch(id).value.name
    ensures r.Success? ==> r.value.series == History.Aggregate(env.fetch(id).value.stats)
    ensures env.fetch(id).Success? && r.Failure? ==>
      var failed := env.render(Chart(env.fetch(id).value.name, History.Aggregate(env.fetch(id).value.stats), OutputPath(outputDir, id)));
      failed.Failure? && r.error == failed.error
  {
    match env.fetch(id)
    case Failure(e) => Failure(e)
    case Success(data) =>
      var chart := Chart(data.name, History.Aggregate(data.stats), OutputPath(outputDir, id));
      match env.render(chart)
      case Failure(e) => Failure(e)
      case Success(_) => Success(chart)
  }

  /** The log a job leaves: the chart it saved, or the error it caught, with its identifier. */
  datatype JobLog = Generated(id: string, chart: Chart) | Failed(id: string, error: string)

  /** One job: the pipeline with every failure caught and logged, never propagated. */
  function ProcessScript(env: Env, id: string, outputDir: Path): (log: JobLog)
    ensures log.id == id
    ensures log.Failed? <==> PlotInstallHistory(env, id, outputDir).Failure?
    ensures log.Failed? ==> log.error == PlotInstallHistory(env, id, outputDir).error
    ensures log.Generated? ==> log.chart == PlotInstallHistory(env, id, outputDir).value
  {
    match PlotInstallHistory(env, id, outputDir)
    case Failure(e) => Failed(id, e)
    case Success(chart) => Generated(id, chart)
  }

  /** The pool's map: one job per identifier, in list order, each independent of the others. */
  function RunAll(env: Env, ids: seq<string>, outputDir: Path): (jobs: seq<JobLog>)
    ensures |jobs| == |ids|
    ensures forall i :: 0 <= i < |ids| ==> jobs[i] == ProcessScript(env, ids[i], outputDir)
  {
    if ids == [] then [] else [ProcessScript(env, ids[0], outputDir)] + RunAll(env, ids[1..], outputDir)
  }

  /** The effects of one run: the configuration file afterwards, whether `output` was created, and the job logs. */
  datatype RunOutcome = RunOutcome(config: Config.ConfigFile, outputDirCreated: bool, jobs: seq<JobLog>)

  /** The output directory, next to the program. */
  function OutputDir(programDir: Path): Path
  {
    programDir + ["output"]
  }

  /**
   * The entry point: load the identifiers; with none, stop before creating the
   * output directory or starting any job; otherwise create it and run one job
   * per identifier.
   */
  function Main(config: Config.ConfigFile, env: Env, programDir: Path): (r: RunOutcome)
    ensures r.config == Config.Load(config).file
    ensures Config.Load(config).ids == [] <==> !r.outputDirCreated
    ensures Config.Load(config).ids == [] ==> r.jobs == []
    ensures |r.jobs| == |Config.Load(config).ids|
    ensures forall i :: 0 <= i < |r.jobs| ==> r.jobs[i].id == Config.Load(config).ids[i]
    ensures forall i :: 0 <= i < |r.jobs| ==>
      r.jobs[i] == ProcessScript(env, Config.Load(config).ids[i], OutputDir(programDir))
  {
    var loaded := Config.Load(config);
    if loaded.ids == [] then
      RunOutcome(loaded.file, false, [])
    else
      RunOutcome(loaded.file, true, RunAll(env, loaded.ids, OutputDir(programDir)))
  }

  /** The chart paths a run writes. */
  function Written(jobs: seq<JobLog>): set<Path>
  {
    set i | 0 <= i < |jobs| && jobs[i].Generated? :: jobs[i].chart.path
  }

  /**
   * The charts a run leaves behind: one at the path of each identifier whose
   * pipeline succeeded, and nothing for an identifier whose pipeline failed.
   */
  lemma WrittenByRun(env: Env, ids: seq<string>, outputDir: Path)
    ensures Written(RunAll(env, ids, outputDir))
         == set id | id in ids && PlotInstallHistory(env, id, outputDir).Success? :: OutputPath(outputDir, id)
  {
  }

  /**
   * A failing job does not disturb the others: changing what the outside world
   * does for one identifier changes only the jobs for that identifier.
   */
  lemma FailureIsolated(env: Env, env': Env, ids: seq<string>, outputDir: Path, bad: string)
    requires forall id :: id != bad ==> env'.fetch(id) == env.fetch(id)
    requires env'.render == env.render
    ensures |RunAll(env', ids, outputDir)| == |RunAll(env, ids, outputDir)|
    ensures forall i :: 0 <= i < |ids| && ids[i] != bad ==>
      RunAll(env', ids, outputDir)[i] == RunAll(env, ids, outputDir)[i]
  {
  }

  /** Jobs for distinct identifiers never write the same chart path. */
  lemma DistinctIdsDistinctPaths(env: Env, ids: seq<string>, outputDir: Path)
    ensures forall i, j ::
      (0 <= i < |ids| && 0 <= j < |ids| && ids[i] != ids[j]
       && RunAll(env, ids, outputDir)[i].Generated? && RunAll(env, ids, outputDir)[j].Generated?)
      ==> RunAll(env, ids, outputDir)[i].chart.path != RunAll(env, ids, outputDir)[j].chart.path
  {
  }

  /**
   * Identifiers "A" and "B" where fetching "A" fails: no exception escapes, "A"
   * is logged as failed, and the only chart written is `history_B.png`.
   */
  lemma OneFailureOneChart(outputDir: Path, stats: seq<History.StatsEntry>)
    ensures var env := Env(id => if id == "A" then Failure("connection refused") else Success(ScriptData("B", stats)),
                           chart => Success(()));
            var jobs := RunAll(env, ["A", "B"], outputDir);
            && jobs[0] == Failed("A", "connection refused")
            && jobs[1].Generated?
            && Written(jobs) == {outputDir + ["history_B.png"]}
  {
    var env := Env(id => if id == "A" then Failure("connection refused") else Success(ScriptData("B", stats)),
                   chart => Success(()));
    var jobs := RunAll(env, ["A", "B"], outputDir);
    assert OutputFileName("B") == "history_B.png";
    assert jobs[1].chart.path == outputDir + ["history_B.png"];
    assert Written(jobs) == {outputDir + ["history_B.png"]};
  }

  /**
   * Running twice gives the same charts from the second run on: a run leaves
   * a present configuration file as it was, so an unchanged outside world
   * yields the same jobs again, and the run after a first, dry run processes
   * exactly the default identifier.
   */
  lemma RerunIsStable(config: Config.ConfigFile, env: Env, programDir: Path)
    ensures config != Config.Missing ==> Main(Main(config, env, programDir).config, env, programDir) == Main(config, env, programDir)
    ensures config == Config.Missing ==> Main(config, env, programDir).jobs == []
    ensures config == Config.Missing ==>
      Main(Main(config, env, programDir).config, env, programDir).jobs
        == [ProcessScript(env, Config.DefaultScriptId, programDir + ["output"])]
  {
  }
}

=== FILE: wrappers.dfy ===
/** Failure-carrying values shared by the other modules. */
module Wrappers {

  /** A value that may be absent, as a JSON key that may be missing. */
  datatype Option<+T> = None | Some(value: T) {

    /** The carried value, or `default` when there is none. */
    function GetOr(default: T): T
    {
      match this
      case Some(v) => v
      case None => default
    }
  }

  /** Either a value or the message of the exception that replaced it. */
  datatype Result<+R, +E> = Success(value: R) | Failure(error: E)
}
